=== FILE: README.md ===
# ServerRT browser client: call state and per-partner sessions

This project models the browser side of the ServerRT call-signaling system
(`client.js`): a client connects to a SignalR hub, sees the list of connected
users, places and answers calls, and negotiates one WebRTC peer connection per
partner by relaying session descriptions and connectivity candidates through
the hub.

The client is modelled as a sequential, event-driven state machine. The state
(`Model.Client`) is the module-level state of `client.js`:

- the `isConnected` and `inCall` flags;
- whether a local media stream is cached;
- the `connections` object, as a `map<PartnerId, Session>`;
- the pending incoming caller;
- the last user list;
- the name the client shows for itself.

Every hub callback and button handler is one atomic transition. It returns a
`Model.Step`: the new client plus the hub invocations it made, in order
(`Join`, `CallUser`, `AnswerCall`, `sendSignal`, `hangUp`, `Disconnect`).
`ClientMachine.Handle` dispatches one event. `ClientMachine.Run` folds a
sequence of events.

Browser and network steps are treated as opaque steps that succeed or fail.
Their outcome is a parameter of the transition:

- `createOffer`/`createAnswer`/`setLocalDescription`/`setRemoteDescription`;
- `addIceCandidate`;
- `getUserMedia`;
- starting the hub connection;
- the `AnswerCall` and `Disconnect` invocations;
- the receive-only `confirm` prompt.

A peer connection is reduced to what the client's logic observes
(`Model.Session`):

- whether local tracks were added;
- its local and remote descriptions;
- the remote candidates it accepted.

Modules: `Wrappers` (Option), `Names` (trimming and the display name),
`Model` (data), `Sessions` (the `connections` object), `Ui` (`setUIState`),
`Signaling` (signal routing and offer/answer), `Calls` (call events and
buttons), `Lifecycle` (connect, close, disconnect, user list) and
`ClientMachine` (the whole machine and properties of runs).

Behaviours of the code worth knowing:

- Connectivity candidates that arrive before the remote description are not
  buffered. `addIceCandidate` is called at once. The WebRTC `addIceCandidate`
  algorithm rejects such a call because there is no remote description yet, so
  the candidate is lost (`Signaling.AddIceItem`, `Signaling.EarlyCandidateDropped`).
- A close of the hub connection (`onclose`) clears `isConnected` and starts a
  new connection. It does not clear `inCall`, the sessions or the cached
  stream. It also fires after the Disconnect button, so a client that
  disconnects reconnects and joins again (`ClientMachine.DisconnectThenReconnect`).
- `callEnded` closes the session with that partner but leaves `inCall` set.
  Only the hang-up and disconnect buttons clear it (`ClientMachine.InCallClearedOnlyByUser`).
- A candidate event for a partner without a session is ignored by
  `ClientMachine.Handle`. `closeConnection` closes a peer connection before
  deleting it, and a closed peer connection raises no more candidate events.
- The self-call guard of the per-user Call button compares the target's
  connection id with the name shown for this client. It does not prevent
  self-calls.
- A second incoming call before the first is answered replaces the pending
  caller, and the first caller is never answered (`Calls.FirstCallerNeverAnswered`).

## Model

| member | source | states |
|---|---|---|
| `Ui.SetUiState` | client.js:68-84 | Call and hang-up are never both enabled. While connected, exactly one of them is enabled: hang-up iff in a call. While disconnected only Connect is enabled. A per-user Call button is disabled iff the global Call button is disabled or that user is flagged in a call. |
| `Lifecycle.UpdateUserList` | client.js:154-203 | A user-list broadcast replaces the list the per-user buttons follow. Nothing else changes and nothing is sent. |
| `Lifecycle.UserListButtons` | client.js:78-83 | After a broadcast, the Call button next to a listed user is disabled iff the client is disconnected, is itself in a call, or the broadcast flags that user in a call. |
| `Names.Trim` | client.js:92 | The trimmed name is a slice of the input. Only whitespace lies outside it, and it neither starts nor ends with whitespace. JavaScript's whitespace and line-terminator set is used. |
| `Names.TrimOfIsTrim` | client.js:92 | Every slice meeting that description equals what `Trim` returns. So the trim of a string is unique. |
| `Names.TrimEmptyIff` | client.js:92 | Trimming leaves nothing iff the input is all whitespace. |
| `Names.TrimIdempotent` | client.js:92 | Trimming twice gives the same result as trimming once. |
| `Names.DisplayName` | client.js:92 | The joined name is never empty and has no surrounding whitespace. It is "Anonymous" if the input is all whitespace, and otherwise the trim of the input. |
| `Lifecycle.StartConnection` | client.js:86-103 | A failed start changes nothing and sends nothing. A successful start sets `isConnected` and sends exactly one `Join` carrying the display name, which is also the name shown. A stream is cached afterwards iff one was cached before or the post-join media request succeeded. Nothing else changes. |
| `Lifecycle.OnClose` | client.js:105-110 | The close handler's own step clears `isConnected` and sends nothing. The call flag, sessions and stream are kept. |
| `Lifecycle.OnDisconnect` | client.js:205-228 | The Disconnect button always ends disconnected and not in a call. When connected it sends `Disconnect`, followed by the `HangUp` fallback iff that invocation failed. When already disconnected it sends nothing. Sessions and stream are kept. |
| `Lifecycle.OnDisconnectIdempotent` | client.js:209-222 | A second disconnect sends nothing and changes nothing. |
| `Calls.CallUserClicked` | client.js:166-174 | Clicking a user's Call button sends at most one `CallUser`, for that user's connection id. It sends nothing iff that id equals the displayed name. State is unchanged. |
| `Calls.IncomingCall` | client.js:253-254 | An incoming call records the caller as pending, replacing any earlier pending caller. It sends nothing and changes nothing else. |
| `Calls.Accept` | client.js:263-289 | With no pending caller nothing happens. Otherwise one or two `AnswerCall`s are sent, all to the pending caller. The pending caller is cleared in every case. A stream is cached afterwards iff one was before or media was obtained. |
| `Calls.AcceptDecision` | client.js:263-289 | The first answer is `true` if media is cached or obtained. For a missing-device error it is the user's choice; for any other failure it is `false`. A second answer follows iff media was available and the `AnswerCall(true)` invocation was rejected. It goes to the same caller, and it accepts iff that rejection's error is a missing-device error and the user chose receive-only. |
| `Calls.AcceptFirstAnswerIff` | client.js:271-285 | The first answer accepts iff media is cached, media is obtained, or a missing-device error met a receive-only choice. |
| `Calls.DeclineAnswersIncomingCaller` | client.js:291-296 | Declining after `incomingCall(u)` sends exactly `AnswerCall(false, u)` and clears the pending caller. |
| `Calls.AcceptAnswersIncomingCaller` | client.js:263-289 | Accepting after `incomingCall(u)` sends at least one answer, and every answer goes to `u`. |
| `Calls.FirstCallerNeverAnswered` | client.js:253-254 | After two incoming calls from different callers, neither button sends any answer to the first caller. |
| `Calls.Decline` | client.js:291-296 | Decline sends exactly `AnswerCall(false, caller)` for a pending caller and nothing without one. It clears the pending caller and changes nothing else. |
| `Calls.Hangup` | client.js:317-325 | Hang-up sends exactly `hangUp`, empties the session map, drops the cached stream and clears `inCall`. Nothing else changes. |
| `Calls.HangupIdempotent` | client.js:317-341 | Hanging up twice leaves the same client as hanging up once. |
| `Sessions.CloseAllConnections` | client.js:328-332 | The close-all loop visits every partner exactly once, closes nothing else, and leaves an empty map. |
| `Calls.CallAccepted` | client.js:343-349 | On `callAccepted` the client is in a call and holds a session for the callee. Other sessions are untouched. At most one signal is sent: an offer to the callee, sent iff the offer was produced. |
| `Signaling.InitiateOffer` | client.js:351-368 | Initiating an offer gets or creates the partner's session and leaves all others untouched. It adds the local tracks when a stream is cached. It sends an `{sdp}` offer to that partner iff creating and setting the offer succeeded, and that offer is what the session records as its local description. The session keeps its remote description and accepted candidates; a new session starts empty. Without an offer the local description is kept. |
| `Sessions.GetConnection` | client.js:370-401 | Looking up a partner returns the stored session, or stores exactly one new session. The map grows by one iff the partner had none. Other partners are untouched. |
| `Sessions.GetConnectionIdempotent` | client.js:370-380 | A second lookup returns the session the first stored. There is never more than one session per partner. |
| `Sessions.PutSession` | client.js:399 | Storing a partner's session changes only that partner's entry. |
| `Calls.CallEnded` | client.js:408-412 | `callEnded` removes only that partner's session and sends nothing. It is a no-op when that partner had no session. `inCall` and everything else are unchanged. |
| `Sessions.CloseConnection` | client.js:415-443 | Closing a partner removes only that partner's entry, leaves every other session as it was, and is a no-op for an unknown partner. |
| `Sessions.CloseUndoesGetConnection` | client.js:370-443 | Closing a partner right after its session was created restores the previous map. |
| `Signaling.RouteOf` | client.js:473-483 | A payload with `sdp` goes to SDP handling, even if it also has a candidate. A payload with a candidate and no `sdp` goes to candidate handling. Anything else, including the `{candidate:null}` end marker, goes to the null-candidate add. |
| `Signaling.NewSignal` | client.js:466-484 | Any received signal first ensures a session for the sender, and no other partner's session changes. Candidate payloads send nothing and leave `inCall` alone. An `sdp` payload sends at most one answer, to the sender, and `inCall` becomes set iff it did. |
| `Signaling.NewSignalCandidateEffects` | client.js:473-483 | With a remote description set, an accepted candidate payload appends that candidate to the sender's session, and `{candidate: null}` appends the end marker. A rejected one changes nothing. An `sdp` payload records no candidate, even when it carries one. |
| `Signaling.ReceivedSdpSignal` | client.js:487-512 | A rejected remote description changes nothing. Otherwise it is recorded on the partner's session. Exactly one `{sdp}` answer goes back to that partner iff an offer was received and answered. `inCall` becomes set iff that answer was sent, and the answer is the session's local description. Answering an offer adds the cached local tracks. The session's accepted candidates are kept. A received answer changes nothing but the remote description, and the local description changes only when an answer is sent. |
| `Signaling.NewSignalSdpEffects` | client.js:473-475 | A payload with an `sdp` member goes to SDP handling even when it also carries a candidate. A rejected description leaves only the session created for the sender. An accepted one is recorded on the sender's session. An answered offer sends exactly one answer to the sender and sets `inCall`; a received answer or a failure sends nothing and leaves `inCall` unchanged. |
| `Signaling.OfferAnswerReaction` | client.js:487-512 | A received offer that is answered sends one answer to its sender and sets `inCall`. A received answer, or any failure, sends nothing and leaves `inCall` unchanged. |
| `Signaling.AddIceItem` | client.js:514-523 | A received candidate or end marker is appended to the partner's session, or nothing changes. It is never recorded while the session has no remote description, so there is no buffering. An item the browser rejects changes nothing. |
| `Signaling.EarlyCandidateDropped` | client.js:517-518 | A candidate payload arriving before the remote description leaves only the session that the lookup created or found. |
| `Signaling.CallbackIceCandidate` | client.js:533-543 | Each gathered candidate, and the end of gathering, sends one signal to the partner. The receiver routes it to candidate handling, or to the null-candidate add for the end marker. State is unchanged. |
| `Signaling.RouteOfSent` | client.js:537-541 | The payloads the client itself sends are routed by the receiver to the matching handler. |
| `Signaling.OfferAnswerRoundTrip` | client.js:494-503 | The caller's offer reaches the callee's SDP handling as an offer. The callee's single answer, sent back to the caller, reaches the caller's SDP handling as an answer. |
| `ClientMachine.Handle` | client.js:385 | A gathered-candidate event sends exactly one candidate signal to its partner when that partner holds a session, and nothing otherwise. The client state is unchanged either way. |
| `ClientMachine.DisconnectThenReconnect` | client.js:205-228 | From a connected client, the Disconnect button, then the close it causes, then a successful restart send `Disconnect` (plus the `HangUp` fallback iff it failed) and then `Join` with the display name. The client ends connected and not in a call. |
| `ClientMachine.HandleSessionKeys` | client.js:370-401 | A handler creates a session only for the partner its event names: the callee of `callAccepted` or the sender of a signal. |
| `ClientMachine.HandleSignalTargets` | client.js:445-449 | Every signal a handler sends goes to a partner it then holds a session for. |
| `ClientMachine.InCallRaisedOnlyByCallSetup` | client.js:343-349 | `inCall` is raised only by `callAccepted` or by answering a received offer (line 504). |
| `ClientMachine.InCallClearedOnlyByUser` | client.js:317-325 | `inCall` is cleared only by the hang-up button or the Disconnect button (lines 221-222). `callEnded` and `onclose` leave it set. |
| `ClientMachine.RunSessionsAndSignals` | client.js:370-401 | Over any run of events, the client only holds sessions for partners it started with or that an event named: a callee that accepted, or a signal's sender. It only ever sends signals to such partners. |

## Left out

- `Program.cs`: the ASP.NET bootstrap, dependency injection, CORS and Swagger wiring. It has no logic of its own.
- The hub and its user/call registries. `Program.cs` registers them, but their source is not part of this model. Server-side properties (invitation states, relaying, tie-breaks) are therefore not modelled.
- DOM construction in `updateUserList` and the incoming-call dialog, `console.log`, the remote-video attachment (`ontrack`, `attachMediaStream`) and text chat (`sendMessage`). These are rendering or out of scope.
- `getId`: reached from the page's Get Id button; not modelled. While disconnected it starts a connection. While connected it sends `Join` again with the freshly trimmed name (client.js:145), but it does not update the name shown for this client.
- `onclickUser`: a backwards-compatible entry point that is not wired to any control.
- `Signaling.ReceivedSdpSignal`: adding the cached tracks to a session that already has them makes `addTrack` throw, and the source stops before `createAnswer` (client.js:497-500), so no answer is sent. The model keeps the session's tracks flag and folds this case into the `AnswerFailed` outcome. A bool cannot tell which stream was added, because a reconnect replaces the stream (client.js:97).
- `Signaling.InitiateOffer`: likewise, re-adding the same tracks makes `initiateOffer` throw before `createOffer` (client.js:355-356), and no offer is sent. The model folds this case into the `None` offer outcome.
- `Calls.CallUserClicked`: the guard compares with the raw display name. The source writes the name with `innerHTML` and reads it back with `innerText`, so markup in the name is parsed and whitespace runs are collapsed. A name such as `a<b>c</b>` is read back as `ac`; this is not modelled.
- `Lifecycle.OnClose`: the handler's `await startConnection()` (client.js:111) is modelled as a separate `ConnectAttempt` event, not as part of the close step.
- `Lifecycle.OnDisconnect`: describes only the button's own step. The close that follows it (the server's abort, or the fallback `stop()` at client.js:215) is a separate `ChannelClosed` event, after which the client reconnects.
- `pranswer` and `rollback` descriptions: this client only creates offers and answers, so a received description is modelled as one of those two.
- The disabled state of a button is not used to gate its click. Each handler is modelled as it runs when invoked.
- `JSON.parse` of a received signal is not modelled. A payload is taken as the object the partner's `JSON.stringify` produced, so a malformed string is not covered.
- The `connections` object is modelled as a map. Property names that a plain JavaScript object inherits (such as `constructor`) are not connection ids, so they are not modelled.
- `RTCPeerConnection`, `getUserMedia` and `MediaStream` internals. Stopping and removing tracks and closing a connection are modelled as erasing the session.
- The SignalR transport and the five-second retry timer. A retry is simply another `ConnectAttempt` event.
- Interleaving between `await`s. Each handler is one atomic step.
- `Names.IsJsWhitespace` covers the ECMAScript WhiteSpace and LineTerminator code points. It works on Unicode scalar values, not UTF-16 code units.

=== FILE: calls.dfy ===
/**
 The call handlers of client.js: the hub events `incomingCall`,
 `callAccepted`, `callDeclined` and `callEnded`, the accept and decline
 buttons of the incoming-call dialog, the hang-up button and the per-user
 Call button.
 */
module Calls {
  import opened Wrappers
  import opened Model
  import opened Sessions
  import opened Signaling

  /** incomingCall: remember the caller and show the dialog. A caller still
      pending is replaced without an answer being sent for it. */
  function IncomingCall(c: Client, caller: User): (r: Step)
    ensures r.out == []
    ensures r.client.pendingCaller == Some(caller)
    ensures r.client.(pendingCaller := c.pendingCaller) == c
  {
    Step(c.(pendingCaller := Some(caller)), [])
  }

  /** callAccepted: the callee accepted our call; we are now in a call and
      send the callee an offer. */
  function CallAccepted(c: Client, callee: User, offer: Option<string>): (r: Step)
    ensures r.client.inCall
    ensures callee.connectionId in r.client.sessions
    ensures OthersUntouched(c.sessions, r.client.sessions, callee.connectionId)
    ensures r.client.(sessions := c.sessions, inCall := c.inCall) == c
    ensures SdpSignalTo(r.out, Offer, callee.connectionId)
    ensures |r.out| == 1 <==> offer.Some?
  {
    InitiateOffer(c.(inCall := true), callee.connectionId, offer)
  }

  /** callDeclined only logs. */
  function CallDeclined(c: Client, callee: User): (r: Step)
    ensures r == Step(c, [])
  {
    Step(c, [])
  }

  /** callEnded: close the session with that partner only. The client's
      inCall flag is left as it was. */
  function CallEnded(c: Client, partner: User): (r: Step)
    ensures r.out == []
    ensures partner.connectionId !in r.client.sessions
    ensures OthersUntouched(c.sessions, r.client.sessions, partner.connectionId)
    ensures OnlySessionsChanged(c, r.client)
    ensures r.client.inCall == c.inCall
    ensures partner.connectionId !in c.sessions ==> r.client == c
  {
    Step(c.(sessions := CloseConnection(c.sessions, partner.connectionId)), [])
  }

  /** The `name` of the errors getUserMedia raises when no usable device
      exists, after which the user is offered a receive-only answer. */
  const DeviceErrorNames: set<string> := {"NotFoundError", "DevicesNotFoundError", "OverconstrainedError"}

  /** The result of ensureLocalMedia: a stream, or an error with its `name`
      (empty when the error has none). */
  datatype MediaResult = Granted | Failed(name: string)

  /** The answer the accept handler's catch block sends for an error with
      the given name: the user's choice in the receive-only prompt for a
      missing device, a decline otherwise. */
  function CatchAnswer(errorName: string, userChoice: bool): (accept: bool)
    ensures accept <==> errorName in DeviceErrorNames && userChoice
  {
    if errorName in DeviceErrorNames then userChoice else false
  }

  /** The accept button. With no pending caller it does nothing. Otherwise it
      acquires local media if none is cached and answers `true`; when either
      the media acquisition or that `AnswerCall` invocation fails, the catch
      block answers according to the error's name. The pending caller is
      cleared in every case.
      `media` is consulted only when no stream is cached, `answerError` is
      the name of the error the `AnswerCall(true)` invocation rejected with,
      if it did, and `userChoice` is the answer to the receive-only prompt. */
  function Accept(c: Client, media: MediaResult, answerError: Option<string>, userChoice: bool): (r: Step)
    ensures r.client.pendingCaller.None?
    ensures c.pendingCaller.None? ==> r == Step(c, [])
    ensures c.pendingCaller.Some? ==>
              && 1 <= |r.out| <= 2
              && (forall m :: m in r.out ==> m.AnswerCall? && m.caller == c.pendingCaller.value)
    ensures r.client.(pendingCaller := c.pendingCaller, localStream := c.localStream) == c
    ensures r.client.localStream <==> c.localStream || (c.pendingCaller.Some? && media.Granted?)
  {
    match c.pendingCaller
    case None => Step(c, [])
    case Some(caller) =>
      var c1 := c.(pendingCaller := None);
      if c.localStream || media.Granted? then
        var c2 := c1.(localStream := true);
        match answerError
        case None => Step(c2, [AnswerCall(true, caller)])
        case Some(name) => Step(c2, [AnswerCall(true, caller), AnswerCall(CatchAnswer(name, userChoice), caller)])
      else
        Step(c1, [AnswerCall(CatchAnswer(media.name, userChoice), caller)])
  }

  /** How the accept button's first answer depends on the media outcome:
      `true` when a stream is cached or obtained, the user's receive-only
      choice when no device could be found, `false` for any other failure. */
  lemma AcceptDecision(c: Client, media: MediaResult, answerError: Option<string>, userChoice: bool)
    requires c.pendingCaller.Some?
    ensures var r := Accept(c, media, answerError, userChoice);
      && r.out[0].caller == c.pendingCaller.value
      && (c.localStream || media.Granted? ==> r.out[0].accept)
      && (!c.localStream && media.Failed? && media.name in DeviceErrorNames ==> r.out[0].accept == userChoice)
      && (!c.localStream && media.Failed? && media.name !in DeviceErrorNames ==> !r.out[0].accept)
      // A second answer is sent only when the first, positive one was rejected.
      && (|r.out| == 2 <==> (c.localStream || media.Granted?) && answerError.Some?)
      // The catch block answers by the name of the invocation's error.
      && (|r.out| == 2 ==>
            && r.out[1].caller == c.pendingCaller.value
            && (r.out[1].accept <==> answerError.value in DeviceErrorNames && userChoice))
  {
  }

  /** The accept button answers `true` first exactly when local media is
      available or the user chose receive-only after a missing device. */
  lemma AcceptFirstAnswerIff(c: Client, media: MediaResult, answerError: Option<string>, userChoice: bool)
    requires c.pendingCaller.Some?
    ensures Accept(c, media, answerError, userChoice).out[0].accept
            <==> c.localStream || media.Granted? || (media.name in DeviceErrorNames && userChoice)
  {
  }

  /** The decline button: answer `false` to the pending caller, if any, and
      clear it. */
  function Decline(c: Client): (r: Step)
    ensures r.client.pendingCaller.None?
    ensures r.client.(pendingCaller := c.pendingCaller) == c
    ensures c.pendingCaller.None? ==> r.out == []
    ensures c.pendingCaller.Some? ==> r.out == [AnswerCall(false, c.pendingCaller.value)]
  {
    match c.pendingCaller
    case None => Step(c, [])
    case Some(caller) => Step(c.(pendingCaller := None), [AnswerCall(false, caller)])
  }

  /** The hang-up button: tell the hub, close every session, drop the cached
      local stream (closeAllConnections) and leave the call. */
  function Hangup(c: Client): (r: Step)
    ensures r.out == [HangUp]
    ensures r.client.sessions == map[] && !r.client.localStream && !r.client.inCall
    ensures r.client.(sessions := c.sessions, localStream := c.localStream, inCall := c.inCall) == c
  {
    Step(c.(sessions := map[], localStream := false, inCall := false), [HangUp])
  }

  /** Hanging up twice leaves the client as hanging up once does; only the
      `hangUp` invocation is repeated. */
  lemma HangupIdempotent(c: Client)
    ensures Hangup(Hangup(c).client).client == Hangup(c).client
    ensures Hangup(Hangup(c).client).out == Hangup(c).out
  {
  }

  /** The per-user Call button. Its guard compares the target's connection
      id with the name shown for this client, not with this client's own
      connection id, so it does not stop a client from calling itself. */
  function CallUserClicked(c: Client, target: User): (r: Step)
    ensures r.client == c
    ensures r.out == [] || r.out == [CallUser(target.connectionId)]
    ensures r.out == [] <==> target.connectionId == c.displayName
  {
    if target.connectionId != c.displayName then Step(c, [CallUser(target.connectionId)]) else Step(c, [])
  }

  /** Declining answers `false` to exactly the caller the last incomingCall
      named. */
  lemma DeclineAnswersIncomingCaller(c: Client, caller: User)
    ensures Decline(IncomingCall(c, caller).client).out == [AnswerCall(false, caller)]
    ensures Decline(IncomingCall(c, caller).client).client.pendingCaller.None?
  {
  }

  /** Accepting answers at least once, and every answer goes to the caller
      the last incomingCall named. */
  lemma AcceptAnswersIncomingCaller(c: Client, caller: User, media: MediaResult, answerError: Option<string>, userChoice: bool)
    ensures var r := Accept(IncomingCall(c, caller).client, media, answerError, userChoice);
      && 1 <= |r.out|
      && forall m :: m in r.out ==> m.AnswerCall? && m.caller == caller
  {
  }

  /** A second incomingCall before the first is answered replaces the
      pending caller: whichever button is pressed next, the first caller is
      never answered. */
  lemma FirstCallerNeverAnswered(c: Client, first: User, second: User,
                                 media: MediaResult, answerError: Option<string>, userChoice: bool)
    requires first != second
    ensures var c2 := IncomingCall(IncomingCall(c, first).client, second).client;
      && (forall m :: m in Decline(c2).out ==> m.AnswerCall? && m.caller != first)
      && (forall m :: m in Accept(c2, media, answerError, userChoice).out ==> m.AnswerCall? && m.caller != first)
  {
  }
}

=== FILE: client.dfy ===
/**
 The client as one event-driven state machine: every hub callback and
 button handler of client.js is one atomic event, and a run folds a
 sequence of events into the final state and every hub invocation made.
 */
module ClientMachine {
  import opened Wrappers
  import opened Model
  import opened Sessions
  import opened Signaling
  import opened Calls
  import opened Lifecycle
  import opened Names

  /** One handler invocation, with the outcomes of the browser and network
      steps it takes. */
  datatype Event =
    | ConnectAttempt(outcome: ConnectOutcome)
    | ChannelClosed
    | DisconnectClicked(disconnectOk: bool)
    | UserListReceived(users: seq<User>)
    | UserCallClicked(target: User)
    | IncomingCallReceived(caller: User)
    | AcceptClicked(media: MediaResult, answerError: Option<string>, userChoice: bool)
    | DeclineClicked
    | HangupClicked
    | CallAcceptedReceived(callee: User, offer: Option<string>)
    | CallDeclinedReceived(callee: User)
    | CallEndedReceived(partner: User)
    | SignalReceived(from: PartnerId, payload: Payload, sdp: SdpOutcome, iceAccepted: bool)
    | IceCandidateFound(peer: PartnerId, candidate: Option<Candidate>)

  /** The partner whose session an event may create, if any. */
  function SessionPartner(e: Event): Option<PartnerId>
  {
    match e
    case CallAcceptedReceived(callee, _) => Some(callee.connectionId)
    case SignalReceived(from, _, _, _) => Some(from)
    case _ => None
  }

  /** Dispatches one event to its handler. A candidate event for a partner
      without a session is dropped: closeConnection closes a peer connection
      before deleting it, and a closed one raises no more candidate events. */
  function Handle(c: Client, e: Event): (r: Step)
    ensures e.IceCandidateFound? ==> r.client == c && (r.out != [] <==> e.peer in c.sessions)
    ensures e.IceCandidateFound? && e.peer in c.sessions ==> r.out == [SendSignal(IcePayload(e.candidate), e.peer)]
  {
    match e
    case ConnectAttempt(o) => StartConnection(c, o)
    case ChannelClosed => OnClose(c)
    case DisconnectClicked(ok) => OnDisconnect(c, ok)
    case UserListReceived(users) => UpdateUserList(c, users)
    case UserCallClicked(target) => CallUserClicked(c, target)
    case IncomingCallReceived(caller) => IncomingCall(c, caller)
    case AcceptClicked(media, err, choice) => Accept(c, media, err, choice)
    case DeclineClicked => Decline(c)
    case HangupClicked => Hangup(c)
    case CallAcceptedReceived(callee, offer) => CallAccepted(c, callee, offer)
    case CallDeclinedReceived(callee) => CallDeclined(c, callee)
    case CallEndedReceived(partner) => CallEnded(c, partner)
    case SignalReceived(from, payload, o, ok) => NewSignal(c, from, payload, o, ok)
    case IceCandidateFound(p, evt) =>
      if p in c.sessions then CallbackIceCandidate(c, p, evt) else Step(c, [])
  }

  /** True when every signal in `out` goes to a partner in `ids`. */
  predicate SignalsTargetIn(out: seq<HubCall>, ids: set<PartnerId>)
  {
    forall i :: 0 <= i < |out| && out[i].SendSignal? ==> out[i].target in ids
  }

  /** True when every signal in `out` goes to a partner with a session in `m`. */
  predicate SignalsTargetSessions(out: seq<HubCall>, m: map<PartnerId, Session>)
  {
    SignalsTargetIn(out, m.Keys)
  }

  /** The partner set an event may add to the session map. */
  function NewPartners(e: Event): set<PartnerId>
  {
    if SessionPartner(e).Some? then {SessionPartner(e).value} else {}
  }

  /** One event creates a session only for the partner it names. */
  lemma HandleSessionKeys(c: Client, e: Event)
    ensures Handle(c, e).client.sessions.Keys <= c.sessions.Keys + NewPartners(e)
  {
    match e
    case CallAcceptedReceived(callee, offer) =>
      assert Handle(c, e).client.sessions.Keys == c.sessions.Keys + {callee.connectionId};
    case SignalReceived(from, payload, o, ok) =>
      assert Handle(c, e).client.sessions.Keys == c.sessions.Keys + {from};
    case IceCandidateFound(p, evt) =>
    case _ =>
  }

  /** Every signal an event makes the client send goes to a partner it holds
      a session for afterwards. */
  lemma HandleSignalTargets(c: Client, e: Event)
    ensures SignalsTargetSessions(Handle(c, e).out, Handle(c, e).client.sessions)
  {
    if e.CallAcceptedReceived? {
      OfferTargetsSession(c, e);
    } else if e.SignalReceived? {
      AnswerTargetsSession(c, e);
    } else if e.IceCandidateFound? {
      CandidateTargetsSession(c, e);
    } else if e.AcceptClicked? || e.DeclineClicked? || e.IncomingCallReceived? || e.UserCallClicked? {
      CallButtonsSendNoSignal(c, e);
    } else {
      LifecycleSendsNoSignal(c, e);
    }
  }

  lemma OfferTargetsSession(c: Client, e: Event)
    requires e.CallAcceptedReceived?
    ensures SignalsTargetSessions(Handle(c, e).out, Handle(c, e).client.sessions)
  {
  }

  lemma AnswerTargetsSession(c: Client, e: Event)
    requires e.SignalReceived?
    ensures SignalsTargetSessions(Handle(c, e).out, Handle(c, e).client.sessions)
  {
  }

  lemma CandidateTargetsSession(c: Client, e: Event)
    requires e.IceCandidateFound?
    ensures SignalsTargetSessions(Handle(c, e).out, Handle(c, e).client.sessions)
  {
  }

  lemma CallButtonsSendNoSignal(c: Client, e: Event)
    requires e.AcceptClicked? || e.DeclineClicked? || e.IncomingCallReceived? || e.UserCallClicked?
    ensures forall i :: 0 <= i < |Handle(c, e).out| ==> !Handle(c, e).out[i].SendSignal?
  {
  }

  lemma LifecycleSendsNoSignal(c: Client, e: Event)
    requires e.ConnectAttempt? || e.ChannelClosed? || e.DisconnectClicked? || e.UserListReceived?
             || e.HangupClicked? || e.CallDeclinedReceived? || e.CallEndedReceived?
    ensures forall i :: 0 <= i < |Handle(c, e).out| ==> !Handle(c, e).out[i].SendSignal?
  {
  }

  /** inCall is raised only by the callee accepting our call or by our
      answering a received offer. */
  lemma InCallRaisedOnlyByCallSetup(c: Client, e: Event)
    requires !c.inCall && Handle(c, e).client.inCall
    ensures e.CallAcceptedReceived?
            || (e.SignalReceived? && e.payload.sdp.Some? && e.payload.sdp.value.kind == Offer && e.sdp.Answered?)
  {
    if e.SignalReceived? {
      var r := NewSignal(c, e.from, e.payload, e.sdp, e.iceAccepted);
      assert |r.out| == 1;
    }
  }

  /** inCall is cleared only by the hang-up and disconnect buttons: the peer
      ending the call (callEnded) and a dropped hub connection (onclose)
      leave it set. */
  lemma InCallClearedOnlyByUser(c: Client, e: Event)
    requires c.inCall && !Handle(c, e).client.inCall
    ensures e.HangupClicked? || e.DisconnectClicked?
  {
  }

  /** The Disconnect button is followed by the hub connection's close (from
      the server's abort or the fallback stop), and onclose starts a new
      connection: when that succeeds the client is connected again and has
      re-joined, though no longer in a call. */
  lemma DisconnectThenReconnect(c: Client, disconnectOk: bool, rawName: string, media: bool)
    requires c.isConnected
    ensures var r := Run(c, [DisconnectClicked(disconnectOk), ChannelClosed, ConnectAttempt(Started(rawName, media))]);
      && r.client.isConnected && !r.client.inCall
      && r.out == (if disconnectOk then [Disconnect] else [Disconnect, HangUp]) + [Join(DisplayName(rawName))]
  {
    var e3 := ConnectAttempt(Started(rawName, media));
    var s1 := OnDisconnect(c, disconnectOk);
    var s2 := OnClose(s1.client);
    var s3 := StartConnection(s2.client, Started(rawName, media));
    assert Run(s2.client, [e3]) == Step(s3.client, s3.out + []) by {
      assert [e3][1..] == [];
    }
    assert Run(s1.client, [ChannelClosed, e3]) == Step(s3.client, [] + s3.out) by {
      assert [ChannelClosed, e3][1..] == [e3];
    }
    assert [DisconnectClicked(disconnectOk), ChannelClosed, e3][1..] == [ChannelClosed, e3];
  }

  /** The fold of a sequence of events. */
  function Run(c: Client, es: seq<Event>): (r: Step)
    decreases |es|
  {
    if es == [] then Step(c, [])
    else
      var s := Handle(c, es[0]);
      var t := Run(s.client, es[1..]);
      Step(t.client, s.out + t.out)
  }

  /** The partners events of a run may create sessions for. */
  function Partners(es: seq<Event>): set<PartnerId>
    decreases |es|
  {
    if es == [] then {}
    else NewPartners(es[0]) + Partners(es[1..])
  }

  /** Over any run, the client only holds sessions for partners it started
      with or that an event named (a callee that accepted, or the sender of
      a signal), and it only ever sends signals to such partners. */
  lemma {:induction false} RunSessionsAndSignals(c: Client, es: seq<Event>)
    ensures var r := Run(c, es);
      && r.client.sessions.Keys <= c.sessions.Keys + Partners(es)
      && SignalsTargetIn(r.out, c.sessions.Keys + Partners(es))
    decreases |es|
  {
    if es != [] {
      var known := c.sessions.Keys + Partners(es);
      var s := Handle(c, es[0]);
      HandleSessionKeys(c, es[0]);
      HandleSignalTargets(c, es[0]);
      RunSessionsAndSignals(s.client, es[1..]);
      var t := Run(s.client, es[1..]);
      assert Run(c, es) == Step(t.client, s.out + t.out);
      assert s.client.sessions.Keys + Partners(es[1..]) <= known;
      SignalsTargetConcat(s.out, t.out, known);
    }
  }

  lemma SignalsTargetConcat(a: seq<HubCall>, b: seq<HubCall>, ids: set<PartnerId>)
    requires SignalsTargetIn(a, ids) && SignalsTargetIn(b, ids)
    ensures SignalsTargetIn(a + b, ids)
  {
    forall i | 0 <= i < |a + b| && (a + b)[i].SendSignal?
      ensures (a + b)[i].target in ids
    {
      if i >= |a| { assert (a + b)[i] == b[i - |a|]; }
    }
  }
}

=== FILE: lifecycle.dfy ===
/**
 The hub connection's life cycle in client.js: startConnection (from the
 Connect button or after a close), the `onclose` handler, the user list
 broadcast and the Disconnect button.
 */
module Lifecycle {
  import opened Wrappers
  import opened Model
  import opened Names
  import opened Ui

  /** The outcome of one startConnection attempt: the hub connection did not
      start, or it started with the name input holding `rawName`, and
      `media` says whether the Join invocation and the local media request
      that follows it both succeeded. */
  datatype ConnectOutcome = StartFailed | Started(rawName: string, media: bool)

  /** startConnection. A failed start changes nothing (another attempt is
      scheduled five seconds later). A successful one marks the client
      connected, shows its name and joins the hub under it. */
  function StartConnection(c: Client, o: ConnectOutcome): (r: Step)
    ensures o.StartFailed? ==> r == Step(c, [])
    ensures o.Started? ==>
              && r.client.isConnected
              && r.out == [Join(r.client.displayName)]
              && r.client.displayName != []
              && (AllWhitespace(o.rawName) ==> r.client.displayName == Anonymous)
              && (!AllWhitespace(o.rawName) ==> IsTrimOf(r.client.displayName, o.rawName))
              && (r.client.localStream <==> c.localStream || o.media)
              && r.client.(isConnected := c.isConnected, displayName := c.displayName, localStream := c.localStream) == c
  {
    match o
    case StartFailed => Step(c, [])
    case Started(raw, media) =>
      var name := DisplayName(raw);
      Step(c.(isConnected := true, displayName := name, localStream := c.localStream || media), [Join(name)])
  }

  /** onclose: the client is no longer connected. Call state, sessions and
      the cached stream are kept; reconnecting is a separate attempt. */
  function OnClose(c: Client): (r: Step)
    ensures r.out == []
    ensures !r.client.isConnected
    ensures r.client.(isConnected := c.isConnected) == c
  {
    Step(c.(isConnected := false), [])
  }

  /** updateUserList: the per-user Call buttons now follow this list. */
  function UpdateUserList(c: Client, users: seq<User>): (r: Step)
    ensures r.out == []
    ensures r.client.users == users
    ensures r.client.(users := c.users) == c
  {
    Step(c.(users := users), [])
  }

  /** The Disconnect button (onDisconnect). While connected it asks the hub
      to disconnect; if that invocation fails it falls back to `HangUp` and
      stops the connection locally. Either way the client ends up
      disconnected and out of the call; sessions and the cached stream are
      kept. */
  function OnDisconnect(c: Client, disconnectOk: bool): (r: Step)
    ensures !r.client.isConnected && !r.client.inCall
    ensures r.client.(isConnected := c.isConnected, inCall := c.inCall) == c
    ensures !c.isConnected ==> r.out == []
    ensures c.isConnected ==> r.out == if disconnectOk then [Disconnect] else [Disconnect, HangUp]
  {
    var out := if !c.isConnected then [] else if disconnectOk then [Disconnect] else [Disconnect, HangUp];
    Step(c.(isConnected := false, inCall := false), out)
  }

  /** Disconnecting twice sends nothing the second time. */
  lemma OnDisconnectIdempotent(c: Client, ok1: bool, ok2: bool)
    ensures OnDisconnect(OnDisconnect(c, ok1).client, ok2) == Step(OnDisconnect(c, ok1).client, [])
  {
  }

  /** After a user-list broadcast, the Call button next to each listed user
      is disabled iff the client is disconnected, is itself in a call, or
      the broadcast flags that user as in a call. */
  lemma UserListButtons(c: Client, users: seq<User>, i: nat)
    requires i < |users|
    ensures SetUiState(UpdateUserList(c, users).client).userCall[i]
            <==> !c.isConnected || c.inCall || users[i].inCall
  {
  }
}

=== FILE: model.dfy ===
/**
 The state of one browser client of the call-signaling hub (client.js) and
 the hub invocations it makes. Every handler of the client is modelled as a
 pure transition from a `Client` to a `Step`: the new client together with
 the hub invocations the handler issued, in order.
 */
module Model {
  import opened Wrappers

  /** A hub connection id; client.js keys its peer connections by it. */
  type PartnerId = string

  /** An entry of the hub's user list, also the identity carried by the
      `incomingCall`, `callAccepted`, `callDeclined` and `callEnded` events. */
  datatype User = User(connectionId: PartnerId, username: string, inCall: bool)

  /** The `type` of an RTCSessionDescription this client sends: it only
      ever creates offers and answers. */
  datatype SdpKind = Offer | Answer

  datatype Description = Description(kind: SdpKind, sdp: string)

  /** A connectivity candidate as serialised by RTCIceCandidate; its content
      is opaque to the client. */
  datatype Candidate = Candidate(text: string)

  /** A signal payload, the JSON object sent through `sendSignal`: its `sdp`
      and `candidate` members, `None` when absent or `null`. */
  datatype Payload = Payload(sdp: Option<Description>, candidate: Option<Candidate>)

  /** What a peer connection has been handed through `addIceCandidate`. */
  datatype IceItem = RemoteCandidate(candidate: Candidate) | EndOfCandidates

  /** The part of one RTCPeerConnection the client's logic observes: whether
      the cached local tracks were added, the local and remote descriptions,
      and the remote candidates the connection accepted. */
  datatype Session = Session(
    localTracks: bool,
    localDescription: Option<Description>,
    remoteDescription: Option<Description>,
    remoteCandidates: seq<IceItem>)

  /** A freshly constructed RTCPeerConnection. */
  const NewSession := Session(false, None, None, [])

  /** The client's module-level state: `isConnected`, `inCall`, whether
      `localStream` holds a stream, the `connections` object, the
      `pendingIncomingCaller`, the last user list received (which the
      per-user Call buttons are built from) and the name shown in the
      `connectionId` element. */
  datatype Client = Client(
    isConnected: bool,
    inCall: bool,
    localStream: bool,
    sessions: map<PartnerId, Session>,
    pendingCaller: Option<User>,
    users: seq<User>,
    displayName: string)

  /** A hub invocation. Hub method names are matched case-insensitively,
      so the hang-up button's `hangUp` and the disconnect fallback's
      `HangUp` are the same method. */
  datatype HubCall =
    | Join(name: string)
    | CallUser(target: PartnerId)
    | AnswerCall(accept: bool, caller: User)
    | SendSignal(payload: Payload, target: PartnerId)
    | HangUp
    | Disconnect

  /** The outcome of one handler. */
  datatype Step = Step(client: Client, out: seq<HubCall>)

  /** True when the step only changed `sessions`. */
  predicate OnlySessionsChanged(c: Client, c': Client)
  {
    c'.(sessions := c.sessions) == c
  }

  /** True when the two session maps agree on every partner but `p`. */
  predicate OthersUntouched(m: map<PartnerId, Session>, m': map<PartnerId, Session>, p: PartnerId)
  {
    && m.Keys - {p} == m'.Keys - {p}
    && (forall q :: q in m && q != p ==> q in m' && m'[q] == m[q])
  }
}

=== FILE: names.dfy ===
/**
 The display name a client joins the hub with: the trimmed text of the name
 input, or "Anonymous" when that is empty (client.js, startConnection).
 */
module Names {

  /** The code points JavaScript's String.prototype.trim strips: the ECMAScript
      WhiteSpace set (TAB, VT, FF, ZWNBSP and the space separators) and the
      LineTerminator set (LF, CR, LS, PS). */
  predicate IsJsWhitespace(ch: char)
  {
    || ch == '\t' || ch == '\n' || ch == '\U{000B}' || ch == '\U{000C}' || ch == '\r'
    || ch == ' ' || ch == '\U{00A0}' || ch == '\U{1680}'
    || ('\U{2000}' <= ch <= '\U{200A}')
    || ch == '\U{2028}' || ch == '\U{2029}' || ch == '\U{202F}' || ch == '\U{205F}'
    || ch == '\U{3000}' || ch == '\U{FEFF}'
  }

  predicate AllWhitespace(s: string)
  {
    forall i :: 0 <= i < |s| ==> IsJsWhitespace(s[i])
  }

  /** `r` is the slice `s[i..j]`, everything outside it is whitespace and it
      neither starts nor ends with whitespace. */
  predicate IsTrimAt(r: string, s: string, i: nat, j: nat)
  {
    && i <= j <= |s| && r == s[i..j]
    && AllWhitespace(s[..i]) && AllWhitespace(s[j..])
    && (r == [] || (!IsJsWhitespace(r[0]) && !IsJsWhitespace(r[|r| - 1])))
  }

  /** Reference definition of trimming: some slice of `s` is `r` in the
      sense of IsTrimAt. */
  ghost predicate IsTrimOf(r: string, s: string)
  {
    exists i: nat, j: nat :: IsTrimAt(r, s, i, j)
  }

  /** Drops leading whitespace. */
  function TrimStart(s: string): (r: string)
    ensures |r| <= |s| && r == s[|s| - |r|..]
    ensures AllWhitespace(s[..|s| - |r|])
    ensures r == [] || !IsJsWhitespace(r[0])
    decreases |s|
  {
    if |s| > 0 && IsJsWhitespace(s[0]) then
      var r := TrimStart(s[1..]);
      assert s[..|s| - |r|] == [s[0]] + s[1..][..|s| - 1 - |r|];
      r
    else s
  }

  /** Drops trailing whitespace. */
  function TrimEnd(s: string): (r: string)
    ensures |r| <= |s| && r == s[..|r|]
    ensures AllWhitespace(s[|r|..])
    ensures r == [] || !IsJsWhitespace(r[|r| - 1])
    decreases |s|
  {
    if |s| > 0 && IsJsWhitespace(s[|s| - 1]) then
      var r := TrimEnd(s[..|s| - 1]);
      assert s[|r|..] == s[..|s| - 1][|r|..] + [s[|s| - 1]];
      r
    else s
  }

  /** String.prototype.trim. */
  function Trim(s: string): (r: string)
    ensures IsTrimOf(r, s)
  {
    var t := TrimStart(s);
    var r := TrimEnd(t);
    var i := |s| - |t|;
    assert IsTrimAt(r, s, i, i + |r|) by {
      assert r == s[i..i + |r|];
      assert s[i + |r|..] == t[|r|..];
    }
    r
  }

  lemma {:induction false} TrimStartAt(s: string, i: nat)
    requires i < |s| && !IsJsWhitespace(s[i]) && AllWhitespace(s[..i])
    ensures TrimStart(s) == s[i..]
    decreases i
  {
    if i > 0 {
      assert s[..i][0] == s[0];
      assert s[1..][..i - 1] == s[..i][1..];
      TrimStartAt(s[1..], i - 1);
      assert s[1..][i - 1..] == s[i..];
    }
  }

  lemma {:induction false} TrimStartAllWhitespace(s: string)
    requires AllWhitespace(s)
    ensures TrimStart(s) == []
    decreases |s|
  {
    if |s| > 0 {
      TrimStartAllWhitespace(s[1..]);
    }
  }

  lemma TrimSliceEmpty(s: string, i: nat)
    requires i <= |s| && AllWhitespace(s[..i]) && AllWhitespace(s[i..])
    ensures Trim(s) == []
  {
    assert AllWhitespace(s) by {
      forall k | 0 <= k < |s| ensures IsJsWhitespace(s[k]) {
        if k < i { assert s[..i][k] == s[k]; } else { assert s[i..][k - i] == s[k]; }
      }
    }
    TrimStartAllWhitespace(s);
  }

  lemma TrimSliceNonEmpty(s: string, i: nat, j: nat)
    requires i < j <= |s| && AllWhitespace(s[..i]) && AllWhitespace(s[j..])
    requires !IsJsWhitespace(s[i]) && !IsJsWhitespace(s[j - 1])
    ensures Trim(s) == s[i..j]
  {
    TrimStartAt(s, i);
    TrimEndOfSuffix(s, i, j);
    assert Trim(s) == TrimEnd(TrimStart(s));
  }

  lemma TrimEndOfSuffix(s: string, i: nat, j: nat)
    requires i < j <= |s| && AllWhitespace(s[j..]) && !IsJsWhitespace(s[j - 1])
    ensures TrimEnd(s[i..]) == s[i..j]
  {
  }

  /** Any string meeting the reference definition is what Trim returns: the
      trim of a string is unique and Trim computes it. */
  lemma TrimOfIsTrim(r: string, s: string)
    requires IsTrimOf(r, s)
    ensures r == Trim(s)
  {
    var i: nat, j: nat :| IsTrimAt(r, s, i, j);
    if i == j { TrimSliceEmpty(s, i); } else { TrimSliceNonEmpty(s, i, j); }
  }

  /** Trimming leaves nothing iff the input is all whitespace. */
  lemma TrimEmptyIff(s: string)
    ensures Trim(s) == [] <==> AllWhitespace(s)
  {
    var t := TrimStart(s);
    if t != [] {
      // The first kept character is a non-whitespace character of s.
      assert !IsJsWhitespace(s[|s| - |t|]);
      assert !IsJsWhitespace(t[0]);
    }
    assert t[0..] == t;
    assert s[..|s|] == s;
  }

  lemma TrimIdempotent(s: string)
    ensures Trim(Trim(s)) == Trim(s)
  {
    var r := Trim(s);
    assert IsTrimAt(r, r, 0, |r|) by {
      assert r == r[0..|r|] && r[..0] == [] && r[|r|..] == [];
    }
    TrimOfIsTrim(r, r);
  }

  /** A non-empty trim neither starts nor ends with whitespace. */
  lemma TrimEnds(s: string)
    requires Trim(s) != []
    ensures !IsJsWhitespace(Trim(s)[0]) && !IsJsWhitespace(Trim(s)[|Trim(s)| - 1])
  {
    var t := TrimStart(s);
    var r := TrimEnd(t);
    assert r == Trim(s);
    assert r[0] == t[0];
  }

  const Anonymous: string := "Anonymous"

  /** The fallback name has no whitespace at either end. */
  lemma AnonymousEnds()
    ensures !IsJsWhitespace(Anonymous[0]) && !IsJsWhitespace(Anonymous[|Anonymous| - 1])
  {
  }

  /** The name sent with `Join` and shown as the client's own identity. */
  function DisplayName(raw: string): (r: string)
    ensures r != []
    ensures !IsJsWhitespace(r[0]) && !IsJsWhitespace(r[|r| - 1])
    ensures AllWhitespace(raw) ==> r == Anonymous
    ensures !AllWhitespace(raw) ==> IsTrimOf(r, raw)
  {
    var t := Trim(raw);
    TrimEmptyIff(raw);
    if t != [] then TrimEnds(raw); t else AnonymousEnds(); Anonymous
  }
}

=== FILE: sessions.dfy ===
/**
 The `connections` object of client.js: one peer connection per partner id,
 created on first use and deleted when the call with that partner ends.
 */
module Sessions {
  import opened Wrappers
  import opened Model

  /** getConnection / initializeConnection: the partner's existing session,
      or a new one stored under the partner's id. */
  function GetConnection(m: map<PartnerId, Session>, p: PartnerId): (r: (map<PartnerId, Session>, Session))
    ensures p in r.0 && r.0[p] == r.1
    ensures p in m ==> r.0 == m
    ensures p !in m ==> r.1 == NewSession
    ensures r.0.Keys == m.Keys + {p}
    ensures OthersUntouched(m, r.0, p)
    ensures |r.0| == if p in m then |m| else |m| + 1
  {
    if p in m then (m, m[p]) else (m[p := NewSession], NewSession)
  }

  /** Stores the partner's (changed) session; a peer connection is mutated
      in place, so this is how a handler's effect on it is recorded. */
  function PutSession(m: map<PartnerId, Session>, p: PartnerId, s: Session): (r: map<PartnerId, Session>)
    ensures p in r && r[p] == s
    ensures r.Keys == m.Keys + {p}
    ensures OthersUntouched(m, r, p)
  {
    m[p := s]
  }

  /** A second lookup finds the session the first one stored: there is never
      more than one session per partner. */
  lemma GetConnectionIdempotent(m: map<PartnerId, Session>, p: PartnerId)
    ensures GetConnection(GetConnection(m, p).0, p) == GetConnection(m, p)
  {
  }

  /** closeConnection: stops the partner's tracks, closes the connection and
      deletes it; nothing happens when the partner has no session. */
  function CloseConnection(m: map<PartnerId, Session>, p: PartnerId): (r: map<PartnerId, Session>)
    ensures p !in r
    ensures r.Keys == m.Keys - {p}
    ensures OthersUntouched(m, r, p)
    ensures p !in m ==> r == m
    ensures |r| == if p in m then |m| - 1 else |m|
  {
    m - {p}
  }

  /** Closing a partner's session undoes the creation of a session for a
      partner that had none. */
  lemma CloseUndoesGetConnection(m: map<PartnerId, Session>, p: PartnerId)
    requires p !in m
    ensures CloseConnection(GetConnection(m, p).0, p) == m
  {
  }

  /** The loop of closeAllConnections: `for (id in connections)
      closeConnection(id)` visits every partner once, in some order, and
      leaves no session behind. */
  method CloseAllConnections(m: map<PartnerId, Session>) returns (closed: seq<PartnerId>, r: map<PartnerId, Session>)
    ensures r == map[]
    ensures forall p :: p in closed <==> p in m
    ensures forall i, j :: 0 <= i < j < |closed| ==> closed[i] != closed[j]
  {
    r := m;
    closed := [];
    while r.Keys != {}
      invariant r.Keys <= m.Keys
      invariant forall p :: p in m ==> (p in closed <==> p !in r)
      invariant forall p :: p in closed ==> p in m
      invariant forall i, j :: 0 <= i < j < |closed| ==> closed[i] != closed[j]
      decreases |r.Keys|
    {
      var p :| p in r.Keys;
      r := CloseConnection(r, p);
      closed := closed + [p];
    }
  }
}

=== FILE: signaling.dfy ===
/**
 The negotiation driver of client.js: how a received signal is routed
 (newSignal), what an SDP or candidate does to the partner's session
 (receivedSdpSignal, receivedCandidateSignal), and the signals the client
 sends itself (initiateOffer, callbackIceCandidate).

 Browser calls are opaque steps that succeed or fail; their outcome is a
 parameter of the transition.
 */
module Signaling {
  import opened Wrappers
  import opened Model
  import opened Sessions

  /** The payload `{sdp: d}` sent with a local description. */
  function SdpPayload(d: Description): Payload
  {
    Payload(Some(d), None)
  }

  /** The payload callbackIceCandidate sends: `{candidate: c}` for a
      discovered candidate, `{candidate: null}` once gathering is complete. */
  function IcePayload(evt: Option<Candidate>): Payload
  {
    Payload(None, evt)
  }

  /** The branch of newSignal a payload takes. */
  datatype Route = SdpRoute(description: Description) | CandidateRoute(candidate: Candidate) | NullCandidateRoute

  function RouteOf(p: Payload): (r: Route)
    // An sdp member wins, even when a candidate is present too.
    ensures r.SdpRoute? <==> p.sdp.Some?
    ensures r.SdpRoute? ==> r.description == p.sdp.value
    ensures r.CandidateRoute? ==> p.candidate == Some(r.candidate)
    // The end marker and anything else without sdp or candidate.
    ensures r.NullCandidateRoute? <==> p.sdp.None? && p.candidate.None?
  {
    if p.sdp.Some? then SdpRoute(p.sdp.value)
    else if p.candidate.Some? then CandidateRoute(p.candidate.value)
    else NullCandidateRoute
  }

  /** What the client sends is routed by its partner to the matching
      handler: a description to SDP handling, a candidate to candidate
      handling and the end-of-gathering marker to the null-candidate add. */
  lemma RouteOfSent(d: Description, evt: Option<Candidate>)
    ensures RouteOf(SdpPayload(d)) == SdpRoute(d)
    ensures RouteOf(IcePayload(evt)) == if evt.Some? then CandidateRoute(evt.value) else NullCandidateRoute
  {
  }

  /** The outcome of the browser steps of receivedSdpSignal:
      setRemoteDescription rejected, or accepted and then createAnswer /
      setLocalDescription either failed or produced an answer. For a remote
      answer only the first step is taken. */
  datatype SdpOutcome = RemoteRejected | AnswerFailed | Answered(sdp: string)

  /** True when `out` holds at most one invocation and it is an `{sdp}`
      signal of the given kind sent to `p`. */
  predicate SdpSignalTo(out: seq<HubCall>, kind: SdpKind, p: PartnerId)
  {
    && |out| <= 1
    && forall m :: m in out ==>
         m.SendSignal? && m.target == p && m.payload.sdp.Some? && m.payload.candidate.None?
         && m.payload.sdp.value.kind == kind
  }

  /** receivedSdpSignal: record the remote description; for an offer add the
      cached local tracks, create and record an answer, send it back and mark
      the client as in a call. Any failing step ends the handler. */
  function ReceivedSdpSignal(c: Client, p: PartnerId, d: Description, o: SdpOutcome): (r: Step)
    requires p in c.sessions
    ensures p in r.client.sessions && r.client.sessions.Keys == c.sessions.Keys
    ensures OthersUntouched(c.sessions, r.client.sessions, p)
    ensures r.client.(sessions := c.sessions, inCall := c.inCall) == c
    ensures SdpSignalTo(r.out, Answer, p)
    // Exactly one answer goes back iff an offer was received and answered.
    ensures |r.out| == 1 <==> d.kind == Offer && o.Answered?
    ensures r.client.inCall <==> c.inCall || |r.out| == 1
    ensures o.RemoteRejected? ==> r == Step(c, [])
    ensures !o.RemoteRejected? ==> r.client.sessions[p].remoteDescription == Some(d)
    ensures |r.out| == 1 ==> r.client.sessions[p].localDescription == r.out[0].payload.sdp
    ensures r.client.sessions[p].remoteCandidates == c.sessions[p].remoteCandidates
    // Answering an offer adds the cached local tracks first.
    ensures r.client.sessions[p].localTracks
            <==> c.sessions[p].localTracks || (!o.RemoteRejected? && d.kind == Offer && c.localStream)
    // A received answer only records the remote description.
    ensures d.kind == Answer && !o.RemoteRejected? ==> r.client.sessions[p] == c.sessions[p].(remoteDescription := Some(d))
    // The local description changes only when an answer is sent.
    ensures |r.out| == 0 ==> r.client.sessions[p].localDescription == c.sessions[p].localDescription
  {
    var s := c.sessions[p];
    if o.RemoteRejected? then Step(c, [])
    else
      var s1 := s.(remoteDescription := Some(d));
      if d.kind == Offer then
        var s2 := s1.(localTracks := s1.localTracks || c.localStream);
        match o
        case Answered(body) =>
          var answer := Description(Answer, body);
          Step(c.(sessions := PutSession(c.sessions, p, s2.(localDescription := Some(answer))), inCall := true),
               [SendSignal(SdpPayload(answer), p)])
        case _ => Step(c.(sessions := PutSession(c.sessions, p, s2)), [])
      else
        Step(c.(sessions := PutSession(c.sessions, p, s1)), [])
  }

  /** Hands one item to the partner's connection with addIceCandidate. The
      WebRTC addIceCandidate algorithm rejects while the connection has no
      remote description, and client.js neither waits nor buffers: such an
      item is dropped. `accepted` is the browser's verdict otherwise. */
  function AddIceItem(c: Client, p: PartnerId, item: IceItem, accepted: bool): (r: Client)
    requires p in c.sessions
    ensures p in r.sessions && OnlySessionsChanged(c, r)
    ensures r.sessions.Keys == c.sessions.Keys && OthersUntouched(c.sessions, r.sessions, p)
    ensures r.sessions[p].(remoteCandidates := c.sessions[p].remoteCandidates) == c.sessions[p]
    // The item is recorded, at the end, or nothing changes.
    ensures r.sessions[p].remoteCandidates == c.sessions[p].remoteCandidates + [item] || r == c
    ensures c.sessions[p].remoteDescription.None? ==> r == c
    ensures c.sessions[p].remoteDescription.Some? && accepted ==> |r.sessions[p].remoteCandidates| == |c.sessions[p].remoteCandidates| + 1
    // A rejected addIceCandidate is only logged.
    ensures !accepted ==> r == c
  {
    var s := c.sessions[p];
    if accepted && s.remoteDescription.Some? then
      c.(sessions := PutSession(c.sessions, p, s.(remoteCandidates := s.remoteCandidates + [item])))
    else c
  }

  /** newSignal: make sure a session exists for the sender, then dispatch on
      the payload. Candidate handling and the null-candidate add send
      nothing. */
  function NewSignal(c: Client, from: PartnerId, payload: Payload, o: SdpOutcome, iceAccepted: bool): (r: Step)
    ensures from in r.client.sessions
    ensures r.client.sessions.Keys == c.sessions.Keys + {from}
    ensures OthersUntouched(c.sessions, r.client.sessions, from)
    ensures r.client.(sessions := c.sessions, inCall := c.inCall) == c
    ensures payload.sdp.None? ==> r.out == [] && r.client.inCall == c.inCall
    ensures payload.sdp.Some? ==> SdpSignalTo(r.out, Answer, from)
    ensures r.client.inCall <==> c.inCall || |r.out| == 1
  {
    var c1 := c.(sessions := GetConnection(c.sessions, from).0);
    match RouteOf(payload)
    case SdpRoute(d) => ReceivedSdpSignal(c1, from, d, o)
    case CandidateRoute(cand) => Step(AddIceItem(c1, from, RemoteCandidate(cand), iceAccepted), [])
    case NullCandidateRoute => Step(AddIceItem(c1, from, EndOfCandidates, iceAccepted), [])
  }

  /** A received offer is answered exactly once, to its sender, and puts the
      client in a call; a received answer sends nothing and leaves inCall
      alone; a failed step sends nothing. */
  lemma OfferAnswerReaction(c: Client, from: PartnerId, d: Description, o: SdpOutcome, iceAccepted: bool)
    ensures var r := NewSignal(c, from, Payload(Some(d), None), o, iceAccepted);
      && (d.kind == Offer && o.Answered? ==>
            r.out == [SendSignal(SdpPayload(Description(Answer, o.sdp)), from)] && r.client.inCall)
      && (d.kind == Answer ==> r.out == [] && r.client.inCall == c.inCall)
      && (!o.Answered? ==> r.out == [] && r.client.inCall == c.inCall)
  {
  }

  /** A payload with an sdp member goes to SDP handling even when it also
      carries a candidate: a rejected description leaves only the session
      getConnection produced, an accepted one is recorded on the sender's
      session, and the offer/answer reaction is that of a plain `{sdp}`. */
  lemma NewSignalSdpEffects(c: Client, from: PartnerId, d: Description, cand: Option<Candidate>,
                            o: SdpOutcome, iceAccepted: bool)
    ensures var r := NewSignal(c, from, Payload(Some(d), cand), o, iceAccepted);
      && (o.RemoteRejected? ==> r == Step(c.(sessions := GetConnection(c.sessions, from).0), []))
      && (!o.RemoteRejected? ==> r.client.sessions[from].remoteDescription == Some(d))
      && (d.kind == Offer && o.Answered? ==>
            r.out == [SendSignal(SdpPayload(Description(Answer, o.sdp)), from)] && r.client.inCall)
      && (d.kind == Answer ==> r.out == [] && r.client.inCall == c.inCall)
      && (!o.Answered? ==> r.out == [] && r.client.inCall == c.inCall)
  {
  }

  /** A candidate that arrives before the remote description is dropped: no
      buffering, the session is exactly what getConnection left. */
  lemma EarlyCandidateDropped(c: Client, from: PartnerId, payload: Payload, o: SdpOutcome, iceAccepted: bool)
    requires payload.sdp.None?
    requires from !in c.sessions || c.sessions[from].remoteDescription.None?
    ensures NewSignal(c, from, payload, o, iceAccepted).client.sessions == GetConnection(c.sessions, from).0
  {
  }

  /** What each route of newSignal does to the sender's session `s`, the one
      getConnection returns: an accepted candidate or end marker is appended
      once a remote description is set, a rejected one changes nothing, and
      an sdp payload records no candidate even when it carries one. */
  lemma NewSignalCandidateEffects(c: Client, from: PartnerId, payload: Payload, o: SdpOutcome, iceAccepted: bool)
    ensures var s := GetConnection(c.sessions, from).1;
      var r := NewSignal(c, from, payload, o, iceAccepted).client.sessions[from];
      && (payload.sdp.None? && payload.candidate.Some? && s.remoteDescription.Some? && iceAccepted ==>
            r == s.(remoteCandidates := s.remoteCandidates + [RemoteCandidate(payload.candidate.value)]))
      && (payload.sdp.None? && payload.candidate.None? && s.remoteDescription.Some? && iceAccepted ==>
            r == s.(remoteCandidates := s.remoteCandidates + [EndOfCandidates]))
      && (payload.sdp.None? && !iceAccepted ==> r == s)
      && (payload.sdp.Some? ==> r.remoteCandidates == s.remoteCandidates)
  {
  }

  /** initiateOffer: get or create the partner's session, add the cached
      local tracks, create an offer, record it and send it to the partner.
      `offer` is the SDP body the browser produced, `None` when createOffer
      or setLocalDescription failed. */
  function InitiateOffer(c: Client, p: PartnerId, offer: Option<string>): (r: Step)
    ensures p in r.client.sessions
    ensures r.client.sessions.Keys == c.sessions.Keys + {p}
    ensures OthersUntouched(c.sessions, r.client.sessions, p)
    ensures OnlySessionsChanged(c, r.client)
    ensures SdpSignalTo(r.out, Offer, p)
    ensures |r.out| == 1 <==> offer.Some?
    ensures c.localStream ==> r.client.sessions[p].localTracks
    ensures offer.Some? ==>
              && r.client.sessions[p].localDescription == Some(Description(Offer, offer.value))
              && r.out[0].payload == SdpPayload(Description(Offer, offer.value))
    // The session getConnection returns (a new one for an unknown partner)
    // keeps its remote side, and its local description unless an offer is set.
    ensures var s := GetConnection(c.sessions, p).1;
      && r.client.sessions[p].remoteDescription == s.remoteDescription
      && r.client.sessions[p].remoteCandidates == s.remoteCandidates
      && (r.client.sessions[p].localTracks <==> s.localTracks || c.localStream)
      && (offer.None? ==> r.client.sessions[p].localDescription == s.localDescription)
  {
    var s := GetConnection(c.sessions, p).1;
    var s1 := s.(localTracks := s.localTracks || c.localStream);
    match offer
    case Some(body) =>
      var d := Description(Offer, body);
      Step(c.(sessions := PutSession(c.sessions, p, s1.(localDescription := Some(d)))), [SendSignal(SdpPayload(d), p)])
    case None => Step(c.(sessions := PutSession(c.sessions, p, s1)), [])
  }

  /** callbackIceCandidate: every locally discovered candidate, and the end
      of gathering, is sent to the partner; the client state is untouched. */
  function CallbackIceCandidate(c: Client, p: PartnerId, evt: Option<Candidate>): (r: Step)
    ensures r.client == c
    ensures |r.out| == 1 && r.out[0].SendSignal? && r.out[0].target == p
    ensures RouteOf(r.out[0].payload) == if evt.Some? then CandidateRoute(evt.value) else NullCandidateRoute
  {
    Step(c, [SendSignal(IcePayload(evt), p)])
  }

  /** The offer the caller sends reaches the callee's SDP handling as an
      offer, and the answer the callee sends back reaches the caller's SDP
      handling as an answer: the exchange never crosses kinds. */
  lemma OfferAnswerRoundTrip(caller: Client, callee: Client, calleeId: PartnerId, callerId: PartnerId,
                             offer: string, o: SdpOutcome, iceAccepted: bool)
    requires o.Answered?
    ensures var sent := InitiateOffer(caller, calleeId, Some(offer)).out;
      && RouteOf(sent[0].payload) == SdpRoute(Description(Offer, offer))
      && var back := NewSignal(callee, callerId, sent[0].payload, o, iceAccepted).out;
      && back == [SendSignal(SdpPayload(Description(Answer, o.sdp)), callerId)]
      && RouteOf(back[0].payload) == SdpRoute(Description(Answer, o.sdp))
  {
  }
}

=== FILE: ui.dfy ===
/**
 setUIState: which buttons are disabled, as a pure function of the client.
 */
module Ui {
  import opened Model

  /** The `disabled` flag of each button; `userCall[i]` is the Call button
      next to `users[i]`. */
  datatype Buttons = Buttons(
    call: bool,
    hangup: bool,
    connect: bool,
    sendMessage: bool,
    disconnect: bool,
    userCall: seq<bool>)

  function SetUiState(c: Client): (b: Buttons)
    ensures |b.userCall| == |c.users|
    // The call and hang-up buttons are never both enabled ...
    ensures b.call || b.hangup
    // ... and while connected exactly one of them is, as inCall says.
    ensures c.isConnected ==> b.call != b.hangup && (b.hangup <==> !c.inCall)
    // Disconnected: only Connect is enabled.
    ensures !c.isConnected ==> b.call && b.hangup && b.sendMessage && b.disconnect && !b.connect
    ensures c.isConnected ==> !b.sendMessage && !b.disconnect && b.connect
    // A per-user Call button is disabled iff the global one is or that user is in a call.
    ensures forall i :: 0 <= i < |c.users| ==> (b.userCall[i] <==> b.call || c.users[i].inCall)
  {
    Buttons(
      call := !c.isConnected || c.inCall,
      hangup := !c.isConnected || !c.inCall,
      connect := c.isConnected,
      sendMessage := !c.isConnected,
      disconnect := !c.isConnected,
      userCall := seq(|c.users|, i requires 0 <= i < |c.users| => !c.isConnected || c.inCall || c.users[i].inCall))
  }
}

=== FILE: wrappers.dfy ===
/** Optional values: a JavaScript `null`/`undefined` (or a missing JSON member) is `None`. */
module Wrappers {

  datatype Option<+T> = None | Some(value: T)
}
